=== FILE: README.md ===
# Seatly booking core in Dafny

Seatly is an Android movie-ticket app. This project models the booking logic
inside its Compose screens as pure functions over immutable data, and proves
properties of that logic:

- **Seat grid** (`SeatGrid`). The seat screen generates a 10x10 demo grid. A
  fixed block is Reserved: row 3 seats 4-7 and row 5 seat 5. A tap swaps a
  seat between Available and Selected and leaves Reserved seats alone.
- **Booking** (`Bookings`). The price breakdown is 150 per Selected seat, a
  booking fee of 10 and taxes of 5. Seat labels are a row letter plus the
  seat number, joined with `", "`. The Next button builds a `Booking` record
  from these.
- **Catalogue** (`Catalog`, `MovieViewModel`). The view model fetches movies
  and genres. It joins each movie's genre ids to genre names and rewrites the
  release date. It publishes Loading, then Success or Error. The tab string
  picks the now-showing fetch or the coming-soon fetch.
- **Showtime picker** (`Showtimes`). The movie-details screen keeps a hall, an
  optional time, a date-chip index and a menu flag. The Next button is gated
  on a time being chosen.
- **Ticket list** (`Tickets`). The Active tab lists tickets in order and the
  Past tab lists them reversed. Each card's ticket count is the number of
  pieces the seat string splits into at commas. The tab state starts at 0
  (`Tickets.InitialTab`).
- **Shared modules.** `Text` holds decimal rendering, `joinToString` and
  `split`, with their round trips. `Options` holds Kotlin's nullable values.

Two facts about the code shape the model:

- The seat screen's Next button
  (`app/src/main/java/com/example/seatly/ui/screens/SeatDetailsScreen.kt:138-161`)
  has no enabled guard. With no seat Selected it builds a booking with seats
  `""`, row `""` and total 15 (`Bookings.EmptySelectionBooking`). That
  booking's ticket card shows 1 ticket (`Tickets.TicketCountOfBooking`).
- The coming-soon fetch calls `getComingSoon`. The repository interface in
  `app/src/main/java/com/example/seatly/data/MovieRepository.kt:7-10` does not
  declare that method. The model treats the call's answer as one more
  repository input (`Repository.comingSoon`).

## Model

| member | source | states |
|---|---|---|
| Text.IntToString | app/src/main/java/com/example/seatly/ui/screens/SeatDetailsScreen.kt:40 | the decimal rendering of an Int in string templates is non-empty and uses only digits and a minus sign |
| Text.NatToString | app/src/main/java/com/example/seatly/ui/screens/SeatDetailsScreen.kt:68 | a non-negative number renders as digits with no leading zero |
| Text.ParseIntRoundTrip | app/src/main/java/com/example/seatly/ui/screens/SeatDetailsScreen.kt:40 | parsing the rendering of any Int gives the Int back |
| Text.IntToStringInjective | app/src/main/java/com/example/seatly/ui/screens/SeatDetailsScreen.kt:40 | two different Ints never render alike |
| Text.Split | app/src/main/java/com/example/seatly/ui/screens/TicketsScreen.kt:290 | `split(',')` yields at least one piece and no piece contains the delimiter |
| Text.SplitCount | app/src/main/java/com/example/seatly/ui/screens/TicketsScreen.kt:290 | `split` yields exactly one piece more than the number of delimiters |
| Text.JoinSplit | app/src/main/java/com/example/seatly/ui/screens/TicketsScreen.kt:290 | joining the pieces of a split with the delimiter restores the string |
| Text.SplitJoin | app/src/main/java/com/example/seatly/ui/screens/TicketsScreen.kt:290 | splitting a delimiter-joined list of delimiter-free items restores the list |
| Text.JoinOccurrences | app/src/main/java/com/example/seatly/ui/screens/SeatDetailsScreen.kt:66-69 | a `joinToString` of n >= 1 delimiter-free items has n-1 times the separator's delimiters, and an empty join has none |
| Text.Join | app/src/main/java/com/example/seatly/ui/screens/SeatDetailsScreen.kt:66 | `joinToString` of no items is empty, and of one or more items begins with the first item |
| Text.JoinAppend | app/src/main/java/com/example/seatly/ui/screens/SeatDetailsScreen.kt:66 | joining two non-empty lists one after the other puts one separator between their joins |
| SeatGrid.GenerateDummySeats | app/src/main/java/com/example/seatly/ui/screens/SeatDetailsScreen.kt:30-44 | the generator returns 100 seats in which seat k is at row k/10+1 and number k%10+1, with id `R{row}N{number}` and the demo status |
| SeatGrid.DummyGridLayout | app/src/main/java/com/example/seatly/ui/screens/SeatDetailsScreen.kt:34-40 | every generated seat has row and number in 1..10, an id naming its position, and positions strictly increase in row-major order |
| SeatGrid.DummyGridCovers | app/src/main/java/com/example/seatly/ui/screens/SeatDetailsScreen.kt:34-35 | every (row, number) of the 10x10 area occurs in the generated grid |
| SeatGrid.DummyGridStatuses | app/src/main/java/com/example/seatly/ui/screens/SeatDetailsScreen.kt:36-39 | a generated seat is Reserved iff it is row 3 seats 4-7 or row 5 seat 5; no generated seat is Selected |
| SeatGrid.DummyGridCounts | app/src/main/java/com/example/seatly/ui/screens/SeatDetailsScreen.kt:36-39 | the generated grid has exactly 5 Reserved seats and 0 Selected |
| SeatGrid.ParseSeatIdRoundTrip | app/src/main/java/com/example/seatly/ui/screens/SeatDetailsScreen.kt:40 | the row and number can be read back from a seat id |
| SeatGrid.SeatIdInjective | app/src/main/java/com/example/seatly/ui/screens/SeatDetailsScreen.kt:40 | different positions get different ids |
| SeatGrid.DummyGridIdsUnique | app/src/main/java/com/example/seatly/ui/screens/SeatDetailsScreen.kt:40 | the ids of the generated grid are pairwise distinct |
| SeatGrid.DummyGridFind | app/src/main/java/com/example/seatly/ui/screens/SeatDetailsScreen.kt:40 | the id of (row, number) occurs in the generated grid exactly at index (row-1)*10+(number-1) |
| SeatGrid.Toggle | app/src/main/java/com/example/seatly/ui/screens/SeatDetailsScreen.kt:188-199 | a tap keeps the length, order and every id/row/number. A seat with another id is unchanged. The tapped seat goes Available to Selected or Selected to Available. A Reserved seat is never changed |
| SeatGrid.ToggleTwice | app/src/main/java/com/example/seatly/ui/screens/SeatDetailsScreen.kt:188-198 | tapping the same seat twice restores the whole grid |
| SeatGrid.ReservedStable | app/src/main/java/com/example/seatly/ui/screens/SeatDetailsScreen.kt:193 | after any series of taps, Reserved seats are unchanged, no other seat has become Reserved, and ids and positions are unchanged |
| SeatGrid.AtMostNinetyFiveSelected | app/src/main/java/com/example/seatly/ui/screens/SeatDetailsScreen.kt:36-39 | whatever is tapped, at most 95 seats of the generated grid are Selected |
| SeatGrid.SelectedAndReservedFit | app/src/main/java/com/example/seatly/ui/screens/SeatDetailsScreen.kt:58 | Selected and Reserved seats together number at most the grid size |
| SeatGrid.ToggleSelectedCount | app/src/main/java/com/example/seatly/ui/screens/SeatDetailsScreen.kt:188-199 | with unique ids, tapping an Available seat adds one Selected seat, tapping a Selected seat removes one, and tapping a Reserved seat changes nothing |
| SeatGrid.SelectedSeats | app/src/main/java/com/example/seatly/ui/screens/SeatDetailsScreen.kt:58 | the filtered list holds as many seats as are Selected, each Selected and taken from the grid |
| SeatGrid.SelectedSeatsAppend | app/src/main/java/com/example/seatly/ui/screens/SeatDetailsScreen.kt:58 | the filter keeps grid order: filtering a grid split in two gives the front part's Selected seats followed by the back part's |
| SeatGrid.NoneBefore | app/src/main/java/com/example/seatly/ui/screens/SeatDetailsScreen.kt:58 | a prefix of the grid with no Selected seat contributes nothing to the filter |
| SeatGrid.FirstSelected | app/src/main/java/com/example/seatly/ui/screens/SeatDetailsScreen.kt:58 | the first seat of the filtered list is the grid's Selected seat of least index |
| SeatGrid.FirstSelectedAll | app/src/main/java/com/example/seatly/ui/screens/SeatDetailsScreen.kt:58 | the first-seat fact for every index at once: any Selected seat with no Selected seat before it heads the filtered list |
| SeatGrid.SelectedSeatsTwo | app/src/main/java/com/example/seatly/ui/screens/SeatDetailsScreen.kt:58 | when exactly positions i < j are Selected, the filter gives those two seats in grid order |
| SeatGrid.TwoTaps | app/src/main/java/com/example/seatly/ui/screens/SeatDetailsScreen.kt:188-199 | on the generated grid, tapping B2 then B3 leaves exactly those two seats Selected |
| Bookings.RowLetter | app/src/main/java/com/example/seatly/ui/screens/SeatDetailsScreen.kt:67 | row r is lettered with the (r-1)-th capital letter |
| Bookings.SeatLabelReadsBack | app/src/main/java/com/example/seatly/ui/screens/SeatDetailsScreen.kt:66-69 | a seat label gives back the seat's row and number, and contains no comma |
| Bookings.SeatLabel | app/src/main/java/com/example/seatly/ui/screens/SeatDetailsScreen.kt:67-68 | a seat label has at least two characters, starts with a capital letter, ends with a digit, and has no comma |
| Bookings.Labels | app/src/main/java/com/example/seatly/ui/screens/SeatDetailsScreen.kt:66-69 | one label per seat, in the same order |
| Bookings.LabelsCommaFree | app/src/main/java/com/example/seatly/ui/screens/SeatDetailsScreen.kt:66-69 | no seat label contains the comma the ticket list splits on |
| Bookings.LabelsAppend | app/src/main/java/com/example/seatly/ui/screens/SeatDetailsScreen.kt:66-69 | the labels of two consecutive seat lists are the two label lists in order |
| Bookings.SelectedSeatNames | app/src/main/java/com/example/seatly/ui/screens/SeatDetailsScreen.kt:66-69 | the seat string is empty iff no seat is Selected, has one comma fewer than there are Selected seats, and begins with the label of the Selected seat of least grid index |
| Bookings.SeatNamesAppend | app/src/main/java/com/example/seatly/ui/screens/SeatDetailsScreen.kt:66-69 | grid order of the seat string: for a grid split in two parts that each hold a Selected seat, the string is the front part's names, ", ", then the back part's |
| Bookings.SelectedRow | app/src/main/java/com/example/seatly/ui/screens/SeatDetailsScreen.kt:70-74 | the row is empty iff no seat is Selected; otherwise it is the one letter of the row of the grid's Selected seat of least index |
| Bookings.Subtotal | app/src/main/java/com/example/seatly/ui/screens/SeatDetailsScreen.kt:62 | the subtotal is a non-negative multiple of 150 whose quotient is the Selected count |
| Bookings.PriceItems | app/src/main/java/com/example/seatly/ui/screens/SeatDetailsScreen.kt:147-151 | the breakdown has exactly three lines in the order Tickets (n) with the subtotal, Booking Fee 10, Taxes 5 |
| Bookings.TotalPrice | app/src/main/java/com/example/seatly/ui/screens/SeatDetailsScreen.kt:59-63 | the total is the sum of the breakdown, equals 150 x Selected + 10 + 5, and is at least 15 |
| Bookings.BuildBooking | app/src/main/java/com/example/seatly/ui/screens/SeatDetailsScreen.kt:140-154 | the booking carries the hall, date, time and poster it was given, the selected row and seat names, the breakdown, the fixed payment mask, and a total equal to the sum of its breakdown |
| Bookings.ReachableLetterable | app/src/main/java/com/example/seatly/ui/screens/SeatDetailsScreen.kt:67 | every seat that can be Selected from the generated grid has a letterable row |
| Bookings.EmptySelectionBooking | app/src/main/java/com/example/seatly/ui/screens/SeatDetailsScreen.kt:138-161 | Next on any grid with nothing Selected still builds a booking, with seats "", row "", "Tickets (0)" at 0 and total 15 |
| Bookings.TwoSeatExample | app/src/main/java/com/example/seatly/ui/screens/SeatDetailsScreen.kt:140-154 | after tapping B2 and B3, the booking has seats "B2, B3", row "B", lines 300/10/5 and total 315 |
| Bookings.TwoSeatBooking | app/src/main/java/com/example/seatly/ui/screens/SeatDetailsScreen.kt:66-74 | a grid whose selection is B2, B3 books "B2, B3" in row "B" for 315 |
| Catalog.GenreMap | app/src/main/java/com/example/seatly/ui/screens/MovieViewModel.kt:68 | the genre map's keys are exactly the ids of the genre list |
| Catalog.GenreMapLastWins | app/src/main/java/com/example/seatly/ui/screens/MovieViewModel.kt:68 | when an id appears more than once, the map holds the name of its last occurrence |
| Catalog.GenreNames | app/src/main/java/com/example/seatly/ui/screens/MovieViewModel.kt:71 | the name list is no longer than the id list, and every name is the map's entry for some known id of the list |
| Catalog.GenreNamesAppend | app/src/main/java/com/example/seatly/ui/screens/MovieViewModel.kt:71 | the join of concatenated id lists is the concatenation of the joins, so the names follow the id order |
| Catalog.UnknownIdDropped | app/src/main/java/com/example/seatly/ui/screens/MovieViewModel.kt:71 | an id absent from the map contributes nothing, wherever it stands |
| Catalog.GenreNamesAllKnown | app/src/main/java/com/example/seatly/ui/screens/MovieViewModel.kt:71 | when every id is known, the i-th name is the name of the i-th id |
| Catalog.Enrich | app/src/main/java/com/example/seatly/ui/screens/MovieViewModel.kt:70-82 | only `genreName` and `releaseDate` change. The names are the genre join. A null date stays null. A present date becomes what the formatter returns, and a failed parse becomes null |
| Catalog.EnrichAll | app/src/main/java/com/example/seatly/ui/screens/MovieViewModel.kt:70-83 | the output list has the response's length and order, and each movie is enriched with the same genre map |
| MovieViewModel.FetchOutcome | app/src/main/java/com/example/seatly/ui/screens/MovieViewModel.kt:65-90 | the final state is never Loading. It is Error iff the movies call or the genres call failed, with no partial success. On Success the list is the enriched response |
| MovieViewModel.Fetch | app/src/main/java/com/example/seatly/ui/screens/MovieViewModel.kt:62-93 | a fetch keeps the published history and appends Loading followed by exactly one final state; the tab is untouched |
| MovieViewModel.FeedForTab | app/src/main/java/com/example/seatly/ui/screens/MovieViewModel.kt:53-58 | the now-showing fetch is chosen iff the tab is exactly "Now Showing" |
| MovieViewModel.OnTabSelect | app/src/main/java/com/example/seatly/ui/screens/MovieViewModel.kt:51-59 | the tab is recorded, Loading is published, and the final state comes from the now-showing fetch iff the tab is "Now Showing", else from the coming-soon fetch |
| MovieViewModel.Create | app/src/main/java/com/example/seatly/ui/screens/MovieViewModel.kt:40-48 | construction starts at Loading with tab "" and runs the now-showing fetch |
| MovieViewModel.GenreFailureIsError | app/src/main/java/com/example/seatly/ui/screens/MovieViewModel.kt:99-123 | a failed genres call ends either fetch in Error |
| MovieViewModel.TabSequence | app/src/main/java/com/example/seatly/ui/screens/MovieViewModel.kt:51-59 | after any series of tab taps, each answered by its own repository calls, the history grows by two per tap and keeps its old entries. The last tab is recorded, and the state is the outcome of the last tap's calls, never Loading |
| MovieViewModel.SelectTabs | app/src/main/java/com/example/seatly/ui/screens/MovieViewModel.kt:51-59 | each tap in a series publishes exactly two states |
| MovieViewModel.RecoverAfterError | app/src/main/java/com/example/seatly/ui/screens/MovieViewModel.kt:51-59 | a tap whose genres call fails shows Error, and a following tap whose calls all succeed shows Success |
| Showtimes.MockCinemasShape | app/src/main/java/com/example/seatly/ui/screens/MovieDetailsScreen.kt:65-69 | three halls named Hall 1-3, with 5, 4 and 4 showtimes |
| Showtimes.Next7Days | app/src/main/java/com/example/seatly/ui/screens/MovieDetailsScreen.kt:72-80 | exactly 7 chips, the k-th formatted for day offset k |
| Showtimes.Initial | app/src/main/java/com/example/seatly/ui/screens/MovieDetailsScreen.kt:88-92 | the picker starts on the first hall, with no time, date index 0 and the menu closed, and this state is valid |
| Showtimes.Step | app/src/main/java/com/example/seatly/ui/screens/MovieDetailsScreen.kt:199-272 | the menu flag flips on expand and clears on dismiss; choosing a hall selects it, clears the time and closes the menu; a time is picked from the current hall; a date chip sets the index |
| Showtimes.StepPreservesValid | app/src/main/java/com/example/seatly/ui/screens/MovieDetailsScreen.kt:226-272 | every transition keeps the time none or one of the current hall's showtimes, and keeps the hall and date index in range |
| Showtimes.RunPreservesValid | app/src/main/java/com/example/seatly/ui/screens/MovieDetailsScreen.kt:226-272 | after any sequence of offered events the selection is still valid |
| Showtimes.NextClick | app/src/main/java/com/example/seatly/ui/screens/MovieDetailsScreen.kt:287-295 | Next acts iff a time is selected. It then hands on the movie id, "day, date" of the chosen chip, the time (one of the hall's) and the hall name |
| Tickets.ClickTab | app/src/main/java/com/example/seatly/ui/screens/TicketsScreen.kt:105-106 | Active sets tab 0 and Past sets tab 1 |
| Tickets.Shown | app/src/main/java/com/example/seatly/ui/screens/TicketsScreen.kt:114-116 | tab 0 shows the tickets as given; any other tab shows them in reverse order |
| Tickets.Reversed | app/src/main/java/com/example/seatly/ui/screens/TicketsScreen.kt:115 | the reversal has the same length and puts ticket n-1-k at position k |
| Tickets.PastIsPermutation | app/src/main/java/com/example/seatly/ui/screens/TicketsScreen.kt:115 | the Past list has the same tickets, with the same multiplicities, and reversing it again restores the order |
| Tickets.TicketCount | app/src/main/java/com/example/seatly/ui/screens/TicketsScreen.kt:290 | the card shows one more than the number of commas in the seat string |
| Tickets.TicketCountOfBooking | app/src/main/java/com/example/seatly/ui/screens/TicketsScreen.kt:290 | for a booking built from the grid, the card shows the Selected count, or 1 when there is none |

## Left out

- Compose layout, colours, previews and theming are left out. So are the
  other screens (profile, search, login, home) and the movie screen's
  rendering. They are presentation only.
- The network plumbing (Retrofit, OkHttp, serialization, the app container)
  is left out. Each repository call is an input value, either a result or a
  caught `IOException`/`HttpException`. Other exceptions, which the source
  does not catch, are not modelled.
- The genres call is not made when the movies call fails. The model gives the
  same Error state in that case and does not record whether the call was made.
- Coroutines and `viewModelScope` are left out. Each fetch is one atomic
  step, and overlapping fetches are not modelled.
- `java.time` date parsing and `"dd MMM yyyy"` formatting are platform
  behaviour. They are a `DateFormatter` parameter, and `None` stands for a
  failed parse.
- `Calendar`/`SimpleDateFormat` in `getNext7Days` are platform behaviour. They
  are a parameter that formats a day offset.
- Prices are `Double` in the source. The booking summary shows them with
  `"%.2f"` (`app/src/main/java/com/example/seatly/ui/screens/BookingSummaryScreen.kt:134`,
  `:141`). The seat screen shows `"$totalPrice"`
  (`app/src/main/java/com/example/seatly/ui/screens/SeatDetailsScreen.kt:129`),
  which is Double's default rendering, such as "315.0". Every amount is
  integral, so money is an `int` and both display formats are left out.
- Kotlin's 32-bit `Int` is Dafny's unbounded `int`, and `voteAverage: Double?`
  is `Option<real>`. Nothing here can overflow or round: rows and numbers are
  1..10, counts are at most 100, and `voteAverage` is only copied.
- Bookings.SeatLabel: only rows 1..26 are lettered. For other rows Kotlin's
  `toChar` gives characters other than A..Z ('[' for row 27, 'a' for row 33),
  or surrogate code units that Dafny's `char` cannot hold, and it wraps modulo
  65536. Every grid the screen can reach keeps the generated rows 1..10
  (`SeatGrid.DummyGridLayout` with `SeatGrid.ReservedStable`), so every
  Selected seat can be lettered (`Bookings.ReachableLetterable`).
- Navigation in MainActivity.kt is left out. It calls members the shown code
  does not define (`tickets`, `getMovieById`, `setBooking`, `addTicket`,
  `onConfirmBooking`), so appending a confirmed ticket to the list is not
  modelled.
- The booking summary's "confirm only if the checkbox is checked" gate is a
  single boolean test and is not modelled.
- The two `AppDestinations` enums and `Booking.sample()` are navigation
  metadata and preview data.
- The ticket tab state is only ever set to 0 or 1 by the two tab buttons.
  `Tickets.Shown` still accepts any tab value, as the source does.

=== FILE: bookings.dfy ===
/** What the seat-selection screen hands on when Next is pressed: seat labels,
    the price breakdown and the immutable `Booking` record. Money is in whole
    currency units; every amount involved is integral. */
module Bookings {
  import opened Options
  import Text
  import opened SeatGrid

  const PricePerSeat: int := 150
  const BookingFee: int := 10
  const Taxes: int := 5
  const PaymentMask: string := "Visa •••• 1234"

  /** One line of the price breakdown: a caption and its amount. */
  datatype PriceItem = PriceItem(caption: string, amount: int)

  /** The snapshot a booking takes of the user's choices. */
  datatype Booking = Booking(
    hall: string,
    date: string,
    time: string,
    row: string,
    seats: string,
    posterUrl: Option<string>,
    priceItems: seq<PriceItem>,
    total: int,
    paymentMask: string)

  /** Sum of the amounts of a breakdown. */
  function SumAmounts(items: seq<PriceItem>): int {
    if |items| == 0 then 0 else items[0].amount + SumAmounts(items[1..])
  }

  // ---------------------------------------------------------------- labels

  /** Rows the label code can letter: `'A' + row - 1` is a letter for rows 1..26. */
  predicate LetterRow(row: int) {
    1 <= row <= 26
  }

  /** `('A'.code + row - 1).toChar()`. */
  function RowLetter(row: int): (c: char)
    requires LetterRow(row)
    ensures 'A' <= c <= 'Z'
    ensures c as int - 'A' as int == row - 1
  {
    ('A' as int + row - 1) as char
  }

  /** The label shown for a seat: its row letter followed by its number. */
  function SeatLabel(s: Seat): (l: string)
    requires LetterRow(s.row)
    ensures |l| >= 2 && ',' !in l
    ensures 'A' <= l[0] <= 'Z' && Text.IsDigit(l[|l| - 1])
  {
    [RowLetter(s.row)] + Text.IntToString(s.number)
  }

  /** A seat label names its seat: the row and number read back from it. */
  lemma SeatLabelReadsBack(s: Seat)
    requires LetterRow(s.row)
    ensures var l := SeatLabel(s);
            |l| >= 2 && l[0] as int - 'A' as int + 1 == s.row && Text.ParseInt(l[1..]) == Some(s.number)
            && ',' !in l
  {
    var l := SeatLabel(s);
    assert l[1..] == Text.IntToString(s.number);
    Text.ParseIntRoundTrip(s.number);
  }

  /** Every seat of `seats` can be lettered. */
  predicate Letterable(seats: seq<Seat>) {
    forall k :: 0 <= k < |seats| ==> LetterRow(seats[k].row)
  }

  function Labels(seats: seq<Seat>): (ls: seq<string>)
    requires Letterable(seats)
    ensures |ls| == |seats|
    ensures forall k :: 0 <= k < |seats| ==> ls[k] == SeatLabel(seats[k])
  {
    seq(|seats|, k requires 0 <= k < |seats| => SeatLabel(seats[k]))
  }

  /** Labels never contain the comma the ticket list splits on. */
  lemma LabelsCommaFree(seats: seq<Seat>)
    requires Letterable(seats)
    ensures forall k :: 0 <= k < |seats| ==> ',' !in Labels(seats)[k]
  {
  }

  /** Labels of consecutive seat lists are consecutive. */
  lemma LabelsAppend(a: seq<Seat>, b: seq<Seat>)
    requires Letterable(a) && Letterable(b)
    ensures Letterable(a + b) && Labels(a + b) == Labels(a) + Labels(b)
  {
  }

  /** `selectedSeatNames`: labels of the Selected seats in grid order, joined
      with ", ". Empty exactly when nothing is Selected, one comma fewer than
      there are Selected seats, and led by the label of the first Selected seat. */
  function SelectedSeatNames(g: seq<Seat>): (s: string)
    requires Letterable(SelectedSeats(g))
    ensures s == "" <==> Count(g, Selected) == 0
    ensures Count(g, Selected) >= 1 ==> Text.Occurrences(s, ',') == Count(g, Selected) - 1
    ensures forall i :: 0 <= i < |g| && g[i].status == Selected && NoneSelectedBefore(g, i) ==>
              LetterRow(g[i].row) && |s| >= |SeatLabel(g[i])| && s[..|SeatLabel(g[i])|] == SeatLabel(g[i])
  {
    var sel := SelectedSeats(g);
    var ls := Labels(sel);
    FirstSelectedAll(g);
    LabelsCommaFree(sel);
    assert Text.Occurrences(", ", ',') == 1 by {
      assert ", "[1..] == " " && " "[1..] == "";
    }
    Text.JoinOccurrences(", ", ls, ',');
    Text.Join(", ", ls)
  }

  /** Grid order of the seat list: the names of a grid split in two, each part
      holding a Selected seat, are the front part's names, ", ", the back part's. */
  lemma SeatNamesAppend(a: seq<Seat>, b: seq<Seat>)
    requires Letterable(SelectedSeats(a)) && Letterable(SelectedSeats(b))
    requires Count(a, Selected) >= 1 && Count(b, Selected) >= 1
    ensures Letterable(SelectedSeats(a + b))
    ensures SelectedSeatNames(a + b) == SelectedSeatNames(a) + ", " + SelectedSeatNames(b)
  {
    SelectedSeatsAppend(a, b);
    LabelsAppend(SelectedSeats(a), SelectedSeats(b));
    Text.JoinAppend(", ", Labels(SelectedSeats(a)), Labels(SelectedSeats(b)));
  }

  /** `selectedRow`: the letter of the first Selected seat, or "" when none is Selected. */
  function SelectedRow(g: seq<Seat>): (r: string)
    requires Letterable(SelectedSeats(g))
    ensures r == "" <==> Count(g, Selected) == 0
    ensures |r| <= 1
    ensures r != "" ==> r == [RowLetter(SelectedSeats(g)[0].row)]
    ensures forall i :: 0 <= i < |g| && g[i].status == Selected && NoneSelectedBefore(g, i) ==>
              LetterRow(g[i].row) && r == [RowLetter(g[i].row)]
  {
    FirstSelectedAll(g);
    var sel := SelectedSeats(g);
    if |sel| > 0 then [RowLetter(sel[0].row)] else ""
  }

  // ---------------------------------------------------------------- prices

  /** `subtotal`: the per-seat price times the number of Selected seats. */
  function Subtotal(g: seq<Seat>): (r: int)
    ensures r >= 0 && r % PricePerSeat == 0
    ensures r / PricePerSeat == Count(g, Selected)
  {
    Count(g, Selected) * PricePerSeat
  }

  /** The three lines of the breakdown, in the order the summary lists them. */
  function PriceItems(g: seq<Seat>): (items: seq<PriceItem>)
    ensures |items| == 3
    ensures items[0].caption == "Tickets (" + Text.IntToString(Count(g, Selected)) + ")"
    ensures items[1] == PriceItem("Booking Fee", BookingFee)
    ensures items[2] == PriceItem("Taxes", Taxes)
    ensures items[0].amount == Subtotal(g)
  {
    [PriceItem("Tickets (" + Text.IntToString(Count(g, Selected)) + ")", Subtotal(g)),
     PriceItem("Booking Fee", BookingFee),
     PriceItem("Taxes", Taxes)]
  }

  /** `totalPrice`: subtotal plus booking fee plus taxes; equals the sum of the
      breakdown and is never below the fixed charges. */
  function TotalPrice(g: seq<Seat>): (t: int)
    ensures t == SumAmounts(PriceItems(g))
    ensures t == PricePerSeat * Count(g, Selected) + BookingFee + Taxes
    ensures t >= BookingFee + Taxes
  {
    var items := PriceItems(g);
    assert SumAmounts(items[2..]) == Taxes by {
      assert items[2..][1..] == [];
    }
    assert SumAmounts(items[1..]) == BookingFee + Taxes by {
      assert items[1..][1..] == items[2..];
    }
    Subtotal(g) + BookingFee + Taxes
  }

  /** The Next button of the seat screen (it has no enabled guard): the
      booking built from the chosen showtime and the current grid. */
  function BuildBooking(poster: Option<string>, date: string, time: string, hall: string, g: seq<Seat>): (b: Booking)
    requires Letterable(SelectedSeats(g))
    ensures b.hall == hall && b.date == date && b.time == time && b.posterUrl == poster
    ensures b.row == SelectedRow(g) && b.seats == SelectedSeatNames(g)
    ensures b.priceItems == PriceItems(g)
    ensures b.total == SumAmounts(b.priceItems)
    ensures b.paymentMask == PaymentMask
  {
    Booking(hall, date, time, SelectedRow(g), SelectedSeatNames(g), poster,
            PriceItems(g), TotalPrice(g), PaymentMask)
  }

  /** Any grid reached by taps from the generated one can be lettered. */
  lemma ReachableLetterable(g: seq<Seat>, ids: seq<string>)
    requires IsDummyGrid(g)
    ensures Letterable(SelectedSeats(ToggleAll(g, ids)))
  {
    var h := ToggleAll(g, ids);
    DummyGridLayout(g);
    ReservedStable(g, ids);
  }

  /** Pressing Next with nothing selected still builds a booking: no seats,
      no row, and a total of just the fee and the taxes. */
  lemma EmptySelectionBooking(poster: Option<string>, date: string, time: string, hall: string, g: seq<Seat>)
    requires Count(g, Selected) == 0
    ensures Letterable(SelectedSeats(g))
    ensures var b := BuildBooking(poster, date, time, hall, g);
            b.seats == "" && b.row == "" && b.total == BookingFee + Taxes
            && b.priceItems[0] == PriceItem("Tickets (0)", 0)
  {
  }

  /** Tapping B2 then B3 on the generated grid gives the seats "B2, B3", row
      "B", lines 300 / 10 / 5 and a total of 315. */
  lemma TwoSeatExample(poster: Option<string>, date: string, time: string, hall: string, g: seq<Seat>)
    requires IsDummyGrid(g)
    ensures var h := ToggleAll(g, [SeatId(2, 2), SeatId(2, 3)]);
            && Letterable(SelectedSeats(h))
            && var b := BuildBooking(poster, date, time, hall, h);
               && b.seats == "B2, B3" && b.row == "B"
               && b.priceItems == [PriceItem("Tickets (2)", 300), PriceItem("Booking Fee", 10), PriceItem("Taxes", 5)]
               && b.total == 315
  {
    TwoTaps(g);
    TwoSeatBooking(poster, date, time, hall, ToggleAll(g, [SeatId(2, 2), SeatId(2, 3)]));
  }

  lemma TwoSeatBooking(poster: Option<string>, date: string, time: string, hall: string, h: seq<Seat>)
    requires SelectedSeats(h) == [DummySeat(2, 2).(status := Selected), DummySeat(2, 3).(status := Selected)]
    ensures && Letterable(SelectedSeats(h))
            && var b := BuildBooking(poster, date, time, hall, h);
               && b.seats == "B2, B3" && b.row == "B"
               && b.priceItems == [PriceItem("Tickets (2)", 300), PriceItem("Booking Fee", 10), PriceItem("Taxes", 5)]
               && b.total == 315
  {
    var sel := SelectedSeats(h);
    assert Text.IntToString(2) == "2" by {
      assert Text.DigitChar(2) == '2';
    }
    assert Text.IntToString(3) == "3" by {
      assert Text.DigitChar(3) == '3';
    }
    assert RowLetter(2) == 'B';
    assert SeatLabel(sel[0]) == "B2";
    assert SeatLabel(sel[1]) == "B3";
    assert Labels(sel) == ["B2", "B3"];
    assert Text.Join(", ", ["B2", "B3"]) == "B2, B3";
    assert Count(h, Selected) == 2;
    assert "Tickets (" + Text.IntToString(2) + ")" == "Tickets (2)";
    assert PriceItems(h)[0] == PriceItem("Tickets (2)", 300);
  }
}

=== FILE: catalog.dfy ===
/** The movie catalogue records and the client-side join that gives every
    movie the names of its genres and a display form of its release date. */
module Catalog {
  import opened Options

  datatype Genre = Genre(id: int, name: string)

  /** A movie as the catalogue API delivers it; `genreName` is filled in
      by the join, `releaseDate` is rewritten into display form. */
  datatype Movie = Movie(
    id: int,
    genre: seq<int>,
    title: string,
    overview: string,
    poster: Option<string>,
    backdrop: Option<string>,
    releaseDate: Option<string>,
    voteAverage: Option<real>,
    genreName: seq<string>)

  /** The date reformatting (`LocalDate.parse` then `"dd MMM yyyy"`), which
      belongs to the platform: `None` stands for a string that fails to parse. */
  type DateFormatter = string -> Option<string>

  /** `genres.associate { it.id to it.name }`: one entry per id; a later
      genre with the same id overwrites an earlier one. */
  function GenreMap(genres: seq<Genre>): (m: map<int, string>)
    ensures forall k :: 0 <= k < |genres| ==> genres[k].id in m
    ensures forall id :: id in m ==> exists k :: 0 <= k < |genres| && genres[k].id == id
    decreases |genres|
  {
    if |genres| == 0 then map[]
    else
      var last := genres[|genres| - 1];
      GenreMap(genres[..|genres| - 1])[last.id := last.name]
  }

  /** The name an id gets is that of the LAST genre carrying the id. */
  lemma {:induction false} GenreMapLastWins(genres: seq<Genre>, k: nat)
    requires k < |genres|
    requires forall j :: k < j < |genres| ==> genres[j].id != genres[k].id
    ensures GenreMap(genres)[genres[k].id] == genres[k].name
    decreases |genres|
  {
    if k < |genres| - 1 {
      var init := genres[..|genres| - 1];
      GenreMapLastWins(init, k);
    }
  }

  /** `movie.genre.mapNotNull { genreMap[it] }`: the known ids looked up in
      order, unknown ids dropped. */
  function GenreNames(ids: seq<int>, m: map<int, string>): (names: seq<string>)
    ensures |names| <= |ids|
    ensures forall n :: n in names ==> exists k :: 0 <= k < |ids| && ids[k] in m && m[ids[k]] == n
    decreases |ids|
  {
    if |ids| == 0 then []
    else (if ids[0] in m then [m[ids[0]]] else []) + GenreNames(ids[1..], m)
  }

  /** Looking up a concatenation is concatenating the lookups: the join keeps
      the order of the ids. */
  lemma {:induction false} GenreNamesAppend(a: seq<int>, b: seq<int>, m: map<int, string>)
    ensures GenreNames(a + b, m) == GenreNames(a, m) + GenreNames(b, m)
    decreases |a|
  {
    if |a| == 0 {
      assert a + b == b;
    } else {
      assert (a + b)[1..] == a[1..] + b;
      GenreNamesAppend(a[1..], b, m);
    }
  }

  /** An id without a genre contributes nothing, wherever it stands. */
  lemma UnknownIdDropped(a: seq<int>, id: int, b: seq<int>, m: map<int, string>)
    requires id !in m
    ensures GenreNames(a + [id] + b, m) == GenreNames(a + b, m)
  {
    GenreNamesAppend(a + [id], b, m);
    GenreNamesAppend(a, [id], m);
    GenreNamesAppend(a, b, m);
  }

  /** When every id is known, each id gets exactly its name, position by position. */
  lemma {:induction false} GenreNamesAllKnown(ids: seq<int>, m: map<int, string>)
    requires forall k :: 0 <= k < |ids| ==> ids[k] in m
    ensures |GenreNames(ids, m)| == |ids|
    ensures forall k :: 0 <= k < |ids| ==> GenreNames(ids, m)[k] == m[ids[k]]
    decreases |ids|
  {
    if |ids| > 0 {
      GenreNamesAllKnown(ids[1..], m);
    }
  }

  /** The per-movie rewrite of the join: only `genreName` and `releaseDate`
      change; a missing date stays missing and an unparsable one becomes missing. */
  function Enrich(movie: Movie, m: map<int, string>, format: DateFormatter): (r: Movie)
    ensures r.(genreName := movie.genreName, releaseDate := movie.releaseDate) == movie
    ensures r.genreName == GenreNames(movie.genre, m)
    ensures movie.releaseDate.None? ==> r.releaseDate.None?
    ensures movie.releaseDate.Some? ==> r.releaseDate == format(movie.releaseDate.value)
  {
    var date := match movie.releaseDate
      case None => None
      case Some(d) => format(d);
    movie.(genreName := GenreNames(movie.genre, m), releaseDate := date)
  }

  /** `moviesResponse.map { ... }`: the response, movie by movie, enriched. */
  function EnrichAll(movies: seq<Movie>, genres: seq<Genre>, format: DateFormatter): (r: seq<Movie>)
    ensures |r| == |movies|
    ensures forall k :: 0 <= k < |movies| ==> r[k] == Enrich(movies[k], GenreMap(genres), format)
  {
    var m := GenreMap(genres);
    seq(|movies|, k requires 0 <= k < |movies| => Enrich(movies[k], m, format))
  }
}

=== FILE: movie_view_model.dfy ===
/** The catalogue screen's view model: a three-state UI state, the two
    fetches (now showing, coming soon) that join movies with genres, and the
    tab selection that picks between them. Each fetch is one sequential step;
    the repository's answers are inputs. */
module MovieViewModel {
  import opened Catalog

  datatype MovieUiState = Loading | Success(movies: seq<Movie>) | Error

  /** The two exceptions a fetch catches. */
  datatype FetchFailure = IoFailure | HttpFailure

  /** What one repository call answers: a value or a caught failure. */
  datatype Response<T> = Ok(value: T) | Failed(failure: FetchFailure)

  /** The repository's answers to the three calls the view model makes. */
  datatype Repository = Repository(
    nowPlaying: Response<seq<Movie>>,
    comingSoon: Response<seq<Movie>>,
    genres: Response<seq<Genre>>)

  datatype Feed = NowShowing | ComingSoon

  /** The observable part of the view model. `published` lists every value
      `movieUiState` has taken, oldest first; its last entry is the current one. */
  datatype ViewModel = ViewModel(published: seq<MovieUiState>, selectedTab: string) {
    predicate Valid() {
      |published| >= 1
    }

    function UiState(): MovieUiState
      requires Valid()
    {
      published[|published| - 1]
    }
  }

  const NowShowingTab: string := "Now Showing"

  /** The outcome of one fetch body: the movies call, then the genres call
      (only reached if the first one succeeded), then the join. */
  function FetchOutcome(movies: Response<seq<Movie>>, genres: Response<seq<Genre>>, format: DateFormatter): (s: MovieUiState)
    ensures s != Loading
    ensures s == Error <==> movies.Failed? || genres.Failed?
    ensures s.Success? ==>
              && movies.Ok? && genres.Ok?
              && |s.movies| == |movies.value|
              && forall k :: 0 <= k < |movies.value| ==>
                   s.movies[k] == Enrich(movies.value[k], GenreMap(genres.value), format)
  {
    match movies
    case Failed(_) => Error
    case Ok(ms) =>
      match genres
      case Failed(_) => Error
      case Ok(gs) => Success(EnrichAll(ms, gs, format))
  }

  /** The movies response the given feed asks the repository for. */
  function MoviesFor(feed: Feed, repo: Repository): Response<seq<Movie>> {
    match feed
    case NowShowing => repo.nowPlaying
    case ComingSoon => repo.comingSoon
  }

  /** `getNowShowingWithGenres` / `getComingWithGenres`: publish Loading, then
      exactly one final state. The tab is left alone. */
  function Fetch(vm: ViewModel, feed: Feed, repo: Repository, format: DateFormatter): (r: ViewModel)
    ensures r.Valid() && r.selectedTab == vm.selectedTab
    ensures |r.published| == |vm.published| + 2
    ensures r.published[..|vm.published|] == vm.published
    ensures r.published[|vm.published|] == Loading
    ensures r.UiState() == FetchOutcome(MoviesFor(feed, repo), repo.genres, format)
  {
    var outcome := FetchOutcome(MoviesFor(feed, repo), repo.genres, format);
    var r := ViewModel(vm.published + [Loading, outcome], vm.selectedTab);
    assert r.published[..|vm.published|] == vm.published;
    r
  }

  /** The feed a tab string selects: now showing only for the exact tab title. */
  function FeedForTab(tab: string): (f: Feed)
    ensures f == NowShowing <==> tab == NowShowingTab
  {
    if tab == NowShowingTab then NowShowing else ComingSoon
  }

  /** `onTabSelect`: record the tab, then run the fetch it selects. */
  function OnTabSelect(vm: ViewModel, tab: string, repo: Repository, format: DateFormatter): (r: ViewModel)
    ensures r.Valid() && r.selectedTab == tab
    ensures |r.published| == |vm.published| + 2
    ensures r.published[..|vm.published|] == vm.published
    ensures r.published[|vm.published|] == Loading
    ensures tab == NowShowingTab ==> r.UiState() == FetchOutcome(repo.nowPlaying, repo.genres, format)
    ensures tab != NowShowingTab ==> r.UiState() == FetchOutcome(repo.comingSoon, repo.genres, format)
  {
    Fetch(vm.(selectedTab := tab), FeedForTab(tab), repo, format)
  }

  /** Construction: the state starts as Loading, the tab as "", and the
      now-showing fetch runs. */
  function Create(repo: Repository, format: DateFormatter): (r: ViewModel)
    ensures r.Valid() && r.selectedTab == ""
    ensures |r.published| == 3 && r.published[0] == Loading && r.published[1] == Loading
    ensures r.UiState() == FetchOutcome(repo.nowPlaying, repo.genres, format)
  {
    Fetch(ViewModel([Loading], ""), NowShowing, repo, format)
  }

  /** A failed genres call spoils either feed: there is no partial success. */
  lemma GenreFailureIsError(vm: ViewModel, feed: Feed, repo: Repository, format: DateFormatter)
    requires repo.genres.Failed?
    ensures Fetch(vm, feed, repo, format).UiState() == Error
  {
  }

  /** Between two fetches the published history only grows, and every fetch
      leaves a final state that is never Loading. Each tap is answered by its
      own repository calls, and the screen ends in the outcome of the last tap's
      calls, whatever earlier taps returned. */
  lemma {:induction false} TabSequence(vm: ViewModel, tabs: seq<string>, repos: seq<Repository>, format: DateFormatter)
    requires vm.Valid() && |repos| == |tabs|
    ensures var r := SelectTabs(vm, tabs, repos, format);
            r.Valid() && |r.published| == |vm.published| + 2 * |tabs|
            && r.published[..|vm.published|] == vm.published
            && (|tabs| > 0 ==>
                  var last := |tabs| - 1;
                  && r.UiState() != Loading && r.selectedTab == tabs[last]
                  && r.UiState() == FetchOutcome(MoviesFor(FeedForTab(tabs[last]), repos[last]), repos[last].genres, format))
    decreases |tabs|
  {
    if |tabs| > 0 {
      var vm' := OnTabSelect(vm, tabs[0], repos[0], format);
      TabSequence(vm', tabs[1..], repos[1..], format);
      var r := SelectTabs(vm', tabs[1..], repos[1..], format);
      assert r.published[..|vm.published|] == r.published[..|vm'.published|][..|vm.published|];
      if |tabs| > 1 {
        assert tabs[1..][|tabs[1..]| - 1] == tabs[|tabs| - 1];
        assert repos[1..][|repos[1..]| - 1] == repos[|repos| - 1];
      }
    }
  }

  /** A failed fetch does not stick: when a later tap's calls succeed, the
      screen shows that tap's movies. */
  lemma RecoverAfterError(vm: ViewModel, tab: string, failed: Repository, ok: Repository, format: DateFormatter)
    requires vm.Valid()
    requires failed.genres.Failed?
    requires ok.nowPlaying.Ok? && ok.comingSoon.Ok? && ok.genres.Ok?
    ensures OnTabSelect(vm, tab, failed, format).UiState() == Error
    ensures SelectTabs(vm, [tab, tab], [failed, ok], format).UiState().Success?
  {
    var vm' := OnTabSelect(vm, tab, failed, format);
    assert [tab, tab][1..] == [tab] && [failed, ok][1..] == [ok];
    assert SelectTabs(vm, [tab, tab], [failed, ok], format) == SelectTabs(vm', [tab], [ok], format);
    assert [tab][1..] == [] && [ok][1..] == [];
    assert SelectTabs(vm', [tab], [ok], format) == OnTabSelect(vm', tab, ok, format);
  }

  /** The view model after the user taps the given tabs in order; tap k is
      answered by `repos[k]`. */
  function SelectTabs(vm: ViewModel, tabs: seq<string>, repos: seq<Repository>, format: DateFormatter): (r: ViewModel)
    requires |repos| == |tabs|
    ensures |r.published| == |vm.published| + 2 * |tabs|
    decreases |tabs|
  {
    if |tabs| == 0 then vm else SelectTabs(OnTabSelect(vm, tabs[0], repos[0], format), tabs[1..], repos[1..], format)
  }
}

=== FILE: options.dfy ===
/** A value that may be absent: Kotlin's nullable types (`String?`, `Double?`). */
module Options {

  datatype Option<+T> = None | Some(value: T)
}

=== FILE: seat_grid.dfy ===
/** The seat map of the seat-selection screen: the fixed 10x10 demo grid with
    its hard-coded reserved block, the tap that toggles a seat, and the
    counts the price summary is computed from. */
module SeatGrid {
  import opened Options
  import Text

  datatype SeatStatus = Available | Selected | Reserved

  /** One cell of the grid. `row` and `number` are 1-based; `id` is `"R{row}N{number}"`. */
  datatype Seat = Seat(id: string, row: int, number: int, status: SeatStatus)

  const Rows: nat := 10
  const Cols: nat := 10

  /** The identifier the grid generator gives the seat at (row, number). */
  function SeatId(row: int, number: int): string {
    "R" + Text.IntToString(row) + "N" + Text.IntToString(number)
  }

  /** Inverse of `SeatId`: the (row, number) an identifier names, if any. */
  function ParseSeatId(id: string): Option<(int, int)> {
    if |id| >= 1 && id[0] == 'R' && 'N' in id[1..] then
      var k := IndexOf(id[1..], 'N') + 1;
      match (Text.ParseInt(id[1..k]), Text.ParseInt(id[k + 1..]))
      case (Some(r), Some(n)) => Some((r, n))
      case _ => None
    else None
  }

  /** Position of the first `c` in `s`. */
  function IndexOf(s: string, c: char): (k: nat)
    requires c in s
    ensures k < |s| && s[k] == c && c !in s[..k]
  {
    if s[0] == c then 0 else IndexOf(s[1..], c) + 1
  }

  /** Seat identifiers read back to the row and number they were built from. */
  lemma ParseSeatIdRoundTrip(row: int, number: int)
    ensures ParseSeatId(SeatId(row, number)) == Some((row, number))
  {
    var r := Text.IntToString(row);
    var n := Text.IntToString(number);
    var id := SeatId(row, number);
    assert id[1..] == r + "N" + n;
    assert 'N' !in r;
    IndexOfAfterPrefix(r, n);
    assert id[1..|r| + 1] == r;
    assert id[|r| + 2..] == n;
    Text.ParseIntRoundTrip(row);
    Text.ParseIntRoundTrip(number);
  }

  lemma IndexOfAfterPrefix(r: string, n: string)
    requires 'N' !in r
    ensures IndexOf(r + "N" + n, 'N') == |r|
  {
    var s := r + "N" + n;
    assert s[|r|] == 'N';
  }

  /** Different positions get different identifiers. */
  lemma SeatIdInjective(r1: int, n1: int, r2: int, n2: int)
    requires SeatId(r1, n1) == SeatId(r2, n2)
    ensures r1 == r2 && n1 == n2
  {
    ParseSeatIdRoundTrip(r1, n1);
    ParseSeatIdRoundTrip(r2, n2);
  }

  /** The hard-coded demo reservation: row 3 seats 4-7 and row 5 seat 5. */
  predicate IsReservedCell(row: int, number: int) {
    (row == 3 && 4 <= number <= 7) || (row == 5 && number == 5)
  }

  function DummySeat(row: int, number: int): Seat {
    Seat(SeatId(row, number), row, number,
         if IsReservedCell(row, number) then Reserved else Available)
  }

  /** The generated grid: row-major, seat `k` sits at row `k / Cols + 1`, number `k % Cols + 1`. */
  ghost predicate IsDummyGrid(g: seq<Seat>) {
    && |g| == Rows * Cols
    && forall k :: 0 <= k < |g| ==> g[k] == DummySeat(k / Cols + 1, k % Cols + 1)
  }

  lemma CellIndex(i: int, j: int)
    requires 1 <= i <= Rows && 1 <= j <= Cols
    ensures ((i - 1) * Cols + (j - 1)) / Cols == i - 1
    ensures ((i - 1) * Cols + (j - 1)) % Cols == j - 1
  {
  }

  /** `generateDummySeats`: rows 1..10 outer, numbers 1..10 inner. */
  method GenerateDummySeats() returns (seats: seq<Seat>)
    ensures IsDummyGrid(seats)
  {
    seats := [];
    var i := 1;
    while i <= Rows
      invariant 1 <= i <= Rows + 1
      invariant |seats| == (i - 1) * Cols
      invariant forall k :: 0 <= k < |seats| ==> seats[k] == DummySeat(k / Cols + 1, k % Cols + 1)
    {
      var j := 1;
      while j <= Cols
        invariant 1 <= j <= Cols + 1
        invariant |seats| == (i - 1) * Cols + (j - 1)
        invariant forall k :: 0 <= k < |seats| ==> seats[k] == DummySeat(k / Cols + 1, k % Cols + 1)
      {
        CellIndex(i, j);
        seats := seats + [DummySeat(i, j)];
        j := j + 1;
      }
      i := i + 1;
    }
  }

  /** Every seat of the generated grid lies inside the 10x10 area, and
      positions increase in row-major order. */
  lemma DummyGridLayout(g: seq<Seat>)
    requires IsDummyGrid(g)
    ensures forall k :: 0 <= k < |g| ==> 1 <= g[k].row <= Rows && 1 <= g[k].number <= Cols
    ensures forall k :: 0 <= k < |g| ==> g[k].id == SeatId(g[k].row, g[k].number)
    ensures forall k, m :: 0 <= k < m < |g| ==>
              g[k].row < g[m].row || (g[k].row == g[m].row && g[k].number < g[m].number)
  {
  }

  /** Every cell of the 10x10 area appears in the generated grid. */
  lemma DummyGridCovers(g: seq<Seat>, row: int, number: int)
    requires IsDummyGrid(g)
    requires 1 <= row <= Rows && 1 <= number <= Cols
    ensures var k := (row - 1) * Cols + (number - 1);
            0 <= k < |g| && g[k].row == row && g[k].number == number
  {
    CellIndex(row, number);
  }

  /** In the generated grid, a seat is Reserved exactly on the demo pattern,
      Available everywhere else, and never Selected. */
  lemma DummyGridStatuses(g: seq<Seat>)
    requires IsDummyGrid(g)
    ensures forall k :: 0 <= k < |g| ==>
              (g[k].status == Reserved <==> IsReservedCell(g[k].row, g[k].number))
    ensures forall k :: 0 <= k < |g| ==> g[k].status != Selected
  {
  }

  /** Identifiers of the generated grid are pairwise distinct. */
  lemma DummyGridIdsUnique(g: seq<Seat>)
    requires IsDummyGrid(g)
    ensures UniqueIds(g)
  {
    forall k, m | 0 <= k < m < |g|
      ensures g[k].id != g[m].id
    {
      if g[k].id == g[m].id {
        SeatIdInjective(g[k].row, g[k].number, g[m].row, g[m].number);
      }
    }
  }

  predicate UniqueIds(g: seq<Seat>) {
    forall k, m :: 0 <= k < m < |g| ==> g[k].id != g[m].id
  }

  // ---------------------------------------------------------------- toggling

  /** The status a tap leaves behind: Available and Selected swap, Reserved stays. */
  function Tap(s: SeatStatus): SeatStatus {
    match s
    case Available => Selected
    case Selected => Available
    case Reserved => Reserved
  }

  /** The seat-tap handler: every seat whose id is `id` gets `Tap` applied to
      its status; all other seats, and every id, row and number, are untouched. */
  function Toggle(g: seq<Seat>, id: string): (r: seq<Seat>)
    ensures |r| == |g|
    ensures forall k :: 0 <= k < |g| ==>
              r[k].id == g[k].id && r[k].row == g[k].row && r[k].number == g[k].number
    ensures forall k :: 0 <= k < |g| && g[k].id != id ==> r[k] == g[k]
    ensures forall k :: 0 <= k < |g| && g[k].id == id && g[k].status == Available ==> r[k].status == Selected
    ensures forall k :: 0 <= k < |g| && g[k].id == id && g[k].status == Selected ==> r[k].status == Available
    ensures forall k :: 0 <= k < |g| && g[k].status == Reserved ==> r[k] == g[k]
  {
    seq(|g|, k requires 0 <= k < |g| =>
      if g[k].id == id then g[k].(status := Tap(g[k].status)) else g[k])
  }

  /** Tapping the same seat twice restores the grid. */
  lemma ToggleTwice(g: seq<Seat>, id: string)
    ensures Toggle(Toggle(g, id), id) == g
  {
  }

  /** The grid after a series of taps, first tap first. */
  function ToggleAll(g: seq<Seat>, ids: seq<string>): seq<Seat>
    decreases |ids|
  {
    if |ids| == 0 then g else ToggleAll(Toggle(g, ids[0]), ids[1..])
  }

  /** No series of taps changes a Reserved seat or makes any seat Reserved;
      identities and positions never change. */
  lemma {:induction false} ReservedStable(g: seq<Seat>, ids: seq<string>)
    ensures |ToggleAll(g, ids)| == |g|
    ensures forall k :: 0 <= k < |g| && g[k].status == Reserved ==> ToggleAll(g, ids)[k] == g[k]
    ensures forall k :: 0 <= k < |g| ==>
              (ToggleAll(g, ids)[k].status == Reserved <==> g[k].status == Reserved)
    ensures forall k :: 0 <= k < |g| ==>
              ToggleAll(g, ids)[k].id == g[k].id && ToggleAll(g, ids)[k].row == g[k].row
              && ToggleAll(g, ids)[k].number == g[k].number
    decreases |ids|
  {
    if |ids| > 0 {
      ReservedStable(Toggle(g, ids[0]), ids[1..]);
    }
  }

  // ---------------------------------------------------------------- counting

  /** Number of seats in `g` whose status is `st`. */
  function Count(g: seq<Seat>, st: SeatStatus): nat {
    if |g| == 0 then 0
    else Count(g[..|g| - 1], st) + (if g[|g| - 1].status == st then 1 else 0)
  }

  /** `seats.filter { it.status == Selected }`, in grid order. */
  function SelectedSeats(g: seq<Seat>): (r: seq<Seat>)
    ensures |r| == Count(g, Selected)
    ensures forall k :: 0 <= k < |r| ==> r[k].status == Selected && r[k] in g
  {
    if |g| == 0 then []
    else SelectedSeats(g[..|g| - 1]) + (if g[|g| - 1].status == Selected then [g[|g| - 1]] else [])
  }

  /** The filter keeps grid order: the Selected seats of a grid split in two
      are those of the front part followed by those of the back part. */
  lemma {:induction false} SelectedSeatsAppend(a: seq<Seat>, b: seq<Seat>)
    ensures SelectedSeats(a + b) == SelectedSeats(a) + SelectedSeats(b)
    decreases |b|
  {
    if |b| == 0 {
      assert a + b == a;
    } else {
      var ab := a + b;
      assert ab[..|ab| - 1] == a + b[..|b| - 1];
      assert ab[|ab| - 1] == b[|b| - 1];
      SelectedSeatsAppend(a, b[..|b| - 1]);
    }
  }

  /** No seat before index `i` is Selected. */
  predicate NoneSelectedBefore(g: seq<Seat>, i: int)
    requires 0 <= i <= |g|
  {
    forall j :: 0 <= j < i ==> g[j].status != Selected
  }

  /** A prefix with no Selected seat contributes nothing to the filter. */
  lemma {:induction false} NoneBefore(g: seq<Seat>, i: nat)
    requires i <= |g| && NoneSelectedBefore(g, i)
    ensures SelectedSeats(g[..i]) == []
    decreases i
  {
    if i > 0 {
      assert g[..i][..i - 1] == g[..i - 1];
      NoneBefore(g, i - 1);
    }
  }

  /** The filter starts with the seat at the least Selected index of the grid. */
  lemma FirstSelected(g: seq<Seat>, i: nat)
    requires i < |g| && g[i].status == Selected && NoneSelectedBefore(g, i)
    ensures |SelectedSeats(g)| > 0 && SelectedSeats(g)[0] == g[i]
  {
    assert g == g[..i] + g[i..];
    SelectedSeatsAppend(g[..i], g[i..]);
    NoneBefore(g, i);
    var rest := g[i..];
    assert rest == [g[i]] + rest[1..];
    SelectedSeatsAppend([g[i]], rest[1..]);
    assert [g[i]][..0] == [];
  }

  /** `FirstSelected` for every index at once. */
  lemma FirstSelectedAll(g: seq<Seat>)
    ensures forall i :: 0 <= i < |g| && g[i].status == Selected && NoneSelectedBefore(g, i) ==>
              |SelectedSeats(g)| > 0 && SelectedSeats(g)[0] == g[i]
  {
    forall i | 0 <= i < |g| && g[i].status == Selected && NoneSelectedBefore(g, i)
      ensures |SelectedSeats(g)| > 0 && SelectedSeats(g)[0] == g[i]
    {
      FirstSelected(g, i);
    }
  }

  /** Counting a status only looks at which seats carry it. */
  lemma {:induction false} CountSameStatusSet(a: seq<Seat>, b: seq<Seat>, st: SeatStatus)
    requires |a| == |b|
    requires forall k :: 0 <= k < |a| ==> (a[k].status == st <==> b[k].status == st)
    ensures Count(a, st) == Count(b, st)
    decreases |a|
  {
    if |a| > 0 {
      CountSameStatusSet(a[..|a| - 1], b[..|b| - 1], st);
    }
  }

  /** Selected and Reserved seats together never outnumber the grid. */
  lemma {:induction false} SelectedAndReservedFit(g: seq<Seat>)
    ensures Count(g, Selected) + Count(g, Reserved) <= |g|
    decreases |g|
  {
    if |g| > 0 {
      SelectedAndReservedFit(g[..|g| - 1]);
    }
  }

  /** Count over a prefix of the generated grid, by how much of the reserved
      block (indices 23..26 and 44) the prefix covers. */
  lemma {:induction false} DummyReservedPrefix(g: seq<Seat>, n: nat)
    requires IsDummyGrid(g)
    requires n <= |g|
    ensures Count(g[..n], Reserved) ==
              if n <= 23 then 0 else if n <= 27 then n - 23 else if n <= 44 then 4 else 5
    decreases n
  {
    if n > 0 {
      DummyReservedPrefix(g, n - 1);
      assert g[..n][..n - 1] == g[..n - 1];
    }
  }

  /** The generated grid has exactly five Reserved seats and none Selected. */
  lemma DummyGridCounts(g: seq<Seat>)
    requires IsDummyGrid(g)
    ensures Count(g, Reserved) == 5
    ensures Count(g, Selected) == 0
  {
    DummyReservedPrefix(g, |g|);
    assert g[..|g|] == g;
    NoneSelected(g);
  }

  lemma {:induction false} NoneSelected(g: seq<Seat>)
    requires forall k :: 0 <= k < |g| ==> g[k].status != Selected
    ensures Count(g, Selected) == 0
    decreases |g|
  {
    if |g| > 0 {
      NoneSelected(g[..|g| - 1]);
    }
  }

  /** Whatever seats are tapped, at most 95 of the generated grid's seats
      can be Selected at once. */
  lemma AtMostNinetyFiveSelected(g: seq<Seat>, ids: seq<string>)
    requires IsDummyGrid(g)
    ensures Count(ToggleAll(g, ids), Selected) <= 95
  {
    var h := ToggleAll(g, ids);
    ReservedStable(g, ids);
    CountSameStatusSet(h, g, Reserved);
    DummyGridCounts(g);
    SelectedAndReservedFit(h);
  }

  /** With unique ids, tapping an Available seat adds exactly one Selected
      seat and tapping a Selected seat removes exactly one. */
  lemma ToggleSelectedCount(g: seq<Seat>, k: nat)
    requires UniqueIds(g)
    requires k < |g|
    ensures g[k].status == Available ==> Count(Toggle(g, g[k].id), Selected) == Count(g, Selected) + 1
    ensures g[k].status == Selected ==> Count(Toggle(g, g[k].id), Selected) + 1 == Count(g, Selected)
    ensures g[k].status == Reserved ==> Toggle(g, g[k].id) == g
  {
    var r := Toggle(g, g[k].id);
    CountChangeAt(g, r, k);
    if g[k].status == Reserved {
      assert forall m :: 0 <= m < |g| ==> r[m] == g[m];
    }
  }

  /** Two grids that differ in the status of seat `k` only have Selected
      counts that differ by that seat's contribution. */
  lemma {:induction false} CountChangeAt(a: seq<Seat>, b: seq<Seat>, k: nat)
    requires |a| == |b| && k < |a|
    requires forall m :: 0 <= m < |a| && m != k ==> a[m].status == b[m].status
    ensures Count(b, Selected) + (if a[k].status == Selected then 1 else 0)
            == Count(a, Selected) + (if b[k].status == Selected then 1 else 0)
    decreases |a|
  {
    var n := |a| - 1;
    if k < n {
      CountChangeAt(a[..n], b[..n], k);
    } else {
      CountSameStatusSet(a[..n], b[..n], Selected);
    }
  }

  /** With Selected seats exactly at positions `i < j`, the selection lists those two, in grid order. */
  lemma SelectedSeatsTwo(h: seq<Seat>, i: nat, j: nat)
    requires i < j < |h|
    requires forall k :: 0 <= k < |h| ==> (h[k].status == Selected <==> k == i || k == j)
    ensures SelectedSeats(h) == [h[i], h[j]]
  {
    SelectedPrefixTwo(h, i, j, |h|);
    assert h[..|h|] == h;
  }

  lemma {:induction false} SelectedPrefixTwo(h: seq<Seat>, i: nat, j: nat, n: nat)
    requires i < j < |h| && n <= |h|
    requires forall k :: 0 <= k < |h| ==> (h[k].status == Selected <==> k == i || k == j)
    ensures SelectedSeats(h[..n]) == if n <= i then [] else if n <= j then [h[i]] else [h[i], h[j]]
    decreases n
  {
    if n > 0 {
      SelectedPrefixTwo(h, i, j, n - 1);
      assert h[..n][..n - 1] == h[..n - 1];
    }
  }

  /** In the generated grid, the seat with the identifier of (row, number) is at
      exactly one position. */
  lemma DummyGridFind(g: seq<Seat>, row: int, number: int)
    requires IsDummyGrid(g)
    requires 1 <= row <= Rows && 1 <= number <= Cols
    ensures forall k :: 0 <= k < |g| ==>
              (g[k].id == SeatId(row, number) <==> k == (row - 1) * Cols + (number - 1))
  {
    CellIndex(row, number);
    forall k | 0 <= k < |g| && g[k].id == SeatId(row, number)
      ensures k == (row - 1) * Cols + (number - 1)
    {
      SeatIdInjective(g[k].row, g[k].number, row, number);
    }
  }

  /** Tapping B2 then B3 on the generated grid selects exactly those two seats. */
  lemma TwoTaps(g: seq<Seat>)
    requires IsDummyGrid(g)
    ensures var h := ToggleAll(g, [SeatId(2, 2), SeatId(2, 3)]);
            SelectedSeats(h) == [DummySeat(2, 2).(status := Selected), DummySeat(2, 3).(status := Selected)]
  {
    var ids := [SeatId(2, 2), SeatId(2, 3)];
    var h1 := Toggle(g, ids[0]);
    var h := Toggle(h1, ids[1]);
    assert ToggleAll(g, ids) == h by {
      assert ids[1..][1..] == [];
    }
    DummyGridFind(g, 2, 2);
    DummyGridFind(g, 2, 3);
    assert forall k :: 0 <= k < |h| ==> (h[k].status == Selected <==> k == 11 || k == 12);
    SelectedSeatsTwo(h, 11, 12);
  }
}

=== FILE: showtimes.dfy ===
/** The showtime picker of the movie-details screen: a hall drop-down, the
    hall's showtimes, seven date chips, and the Next button that hands the
    chosen showtime on. */
module Showtimes {
  import opened Options

  /** A hall and the times it plays, in display order. */
  datatype Cinema = Cinema(name: string, showtime: seq<string>)

  /** The fixed hall table. */
  const MockCinemas: seq<Cinema> := [
    Cinema("Hall 1", ["10:00", "13:00", "16:00", "19:00", "22:00"]),
    Cinema("Hall 2", ["11:30", "14:30", "17:30", "20:30"]),
    Cinema("Hall 3", ["12:00", "15:00", "18:00", "21:00"])
  ]

  /** Number of date chips. */
  const DayCount: nat := 7

  lemma MockCinemasShape()
    ensures |MockCinemas| == 3
    ensures |MockCinemas[0].showtime| == 5 && |MockCinemas[1].showtime| == 4 && |MockCinemas[2].showtime| == 4
    ensures MockCinemas[0].name == "Hall 1" && MockCinemas[1].name == "Hall 2" && MockCinemas[2].name == "Hall 3"
  {
  }

  /** `getNext7Days`: starting from today, the calendar is advanced by 0 for
      the first chip and by one day for each later one; every chip shows the
      (weekday, day-of-month) the platform formats for that day offset. */
  method Next7Days(format: nat -> (string, string)) returns (days: seq<(string, string)>)
    ensures |days| == DayCount
    ensures forall k :: 0 <= k < DayCount ==> days[k] == format(k)
  {
    days := [];
    var offset: nat := 0;
    var it := 0;
    while it <= 6
      invariant 0 <= it <= 7
      invariant |days| == it
      invariant it > 0 ==> offset == it - 1
      invariant it == 0 ==> offset == 0
      invariant forall k :: 0 <= k < it ==> days[k] == format(k)
    {
      offset := offset + (if it == 0 then 0 else 1);
      days := days + [format(offset)];
      it := it + 1;
    }
  }

  /** The picker's state. */
  datatype Selection = Selection(
    cinema: Cinema,
    time: Option<string>,
    dateIndex: int,
    menuExpanded: bool)

  /** What a reachable selection satisfies: the hall is one of the table's,
      the time (if any) is one of that hall's, the date index names a chip. */
  predicate Valid(s: Selection) {
    && s.cinema in MockCinemas
    && (s.time.Some? ==> s.time.value in s.cinema.showtime)
    && 0 <= s.dateIndex < DayCount
  }

  /** The screen's first state: the first hall, no time, today, menu closed. */
  function Initial(): (s: Selection)
    ensures Valid(s) && s.time.None? && s.dateIndex == 0 && !s.menuExpanded
    ensures s.cinema == MockCinemas[0]
  {
    Selection(MockCinemas[0], None, 0, false)
  }

  /** The user's actions on the picker. Each carries what the screen offers:
      an index into the hall table, into the hall's times, into the date chips. */
  datatype Event =
    | ExpandedChange
    | DismissMenu
    | ChooseHall(hall: int)
    | PickTime(slot: int)
    | PickDate(day: int)

  /** The events the screen can raise in state `s`: only offered halls,
      times of the current hall and existing date chips. */
  predicate Offered(s: Selection, e: Event) {
    match e
    case ChooseHall(h) => 0 <= h < |MockCinemas|
    case PickTime(t) => 0 <= t < |s.cinema.showtime|
    case PickDate(d) => 0 <= d < DayCount
    case _ => true
  }

  /** One transition of the picker. */
  function Step(s: Selection, e: Event): (r: Selection)
    requires Offered(s, e)
    ensures e.ExpandedChange? ==> r == s.(menuExpanded := !s.menuExpanded)
    ensures e.DismissMenu? ==> r == s.(menuExpanded := false)
    ensures e.ChooseHall? ==>
              r.cinema == MockCinemas[e.hall] && r.time.None? && !r.menuExpanded && r.dateIndex == s.dateIndex
    ensures e.PickTime? ==> r == s.(time := Some(s.cinema.showtime[e.slot]))
    ensures e.PickDate? ==> r == s.(dateIndex := e.day)
  {
    match e
    case ExpandedChange => s.(menuExpanded := !s.menuExpanded)
    case DismissMenu => s.(menuExpanded := false)
    case ChooseHall(h) => s.(cinema := MockCinemas[h], menuExpanded := false, time := None)
    case PickTime(t) => s.(time := Some(s.cinema.showtime[t]))
    case PickDate(d) => s.(dateIndex := d)
  }

  /** Every transition keeps the selection valid: in particular a selected
      time always belongs to the selected hall. */
  lemma StepPreservesValid(s: Selection, e: Event)
    requires Valid(s) && Offered(s, e)
    ensures Valid(Step(s, e))
  {
  }

  /** Whether each event of `es` is offered in the state it meets. */
  predicate OfferedRun(s: Selection, es: seq<Event>)
    decreases |es|
  {
    |es| == 0 || (Offered(s, es[0]) && OfferedRun(Step(s, es[0]), es[1..]))
  }

  function Run(s: Selection, es: seq<Event>): Selection
    requires OfferedRun(s, es)
    decreases |es|
  {
    if |es| == 0 then s else Run(Step(s, es[0]), es[1..])
  }

  /** Whatever the user does, starting from the initial state, the selected
      time is none or one of the selected hall's showtimes. */
  lemma {:induction false} RunPreservesValid(s: Selection, es: seq<Event>)
    requires Valid(s) && OfferedRun(s, es)
    ensures Valid(Run(s, es))
    decreases |es|
  {
    if |es| > 0 {
      StepPreservesValid(s, es[0]);
      RunPreservesValid(Step(s, es[0]), es[1..]);
    }
  }

  /** What the Next button hands on: movie id, "day, date", time, hall name. */
  datatype Showtime = Showtime(movieId: int, date: string, time: string, hall: string)

  /** Whether the Next button is enabled. */
  predicate NextEnabled(s: Selection) {
    s.time.Some?
  }

  /** The Next button: nothing happens without a time; otherwise the chosen
      showtime, with the chip's day and date joined by ", ". */
  function NextClick(s: Selection, movieId: int, dates: seq<(string, string)>): (r: Option<Showtime>)
    requires Valid(s) && |dates| == DayCount
    ensures r.Some? <==> NextEnabled(s)
    ensures r.Some? ==>
              && r.value.movieId == movieId
              && r.value.time == s.time.value
              && r.value.time in s.cinema.showtime
              && r.value.hall == s.cinema.name
              && r.value.date == dates[s.dateIndex].0 + ", " + dates[s.dateIndex].1
  {
    var (day, date) := dates[s.dateIndex];
    match s.time
    case None => None
    case Some(t) => Some(Showtime(movieId, day + ", " + date, t, s.cinema.name))
  }
}

=== FILE: text.dfy ===
/** The few string operations the booking screens rely on: Kotlin's decimal
    rendering of an `Int` (string templates such as `"R${i}N${j}"`),
    `joinToString(separator)` and `split(char)`. */
module Text {
  import opened Options

  predicate IsDigit(c: char) {
    '0' <= c <= '9'
  }

  predicate AllDigits(s: string) {
    forall k :: 0 <= k < |s| ==> IsDigit(s[k])
  }

  function DigitChar(d: nat): (c: char)
    requires d < 10
    ensures IsDigit(c)
  {
    ('0' as int + d) as char
  }

  /** Decimal digits of `n`, most significant first, no leading zero. */
  function NatToString(n: nat): (s: string)
    ensures |s| >= 1 && AllDigits(s)
    ensures |s| > 1 ==> s[0] != '0'
    decreases n
  {
    if n < 10 then [DigitChar(n)] else NatToString(n / 10) + [DigitChar(n % 10)]
  }

  /** Kotlin's `Int.toString()`: a minus sign before the magnitude of a negative value. */
  function IntToString(i: int): (s: string)
    ensures |s| >= 1
    ensures forall k :: 0 <= k < |s| ==> IsDigit(s[k]) || s[k] == '-'
  {
    if i < 0 then "-" + NatToString(-i) else NatToString(i)
  }

  /** Value of a string of decimal digits, read most significant first. */
  function DigitsValue(s: string): nat
    requires AllDigits(s)
  {
    if |s| == 0 then 0
    else
      assert IsDigit(s[|s| - 1]);
      10 * DigitsValue(s[..|s| - 1]) + (s[|s| - 1] as int - '0' as int)
  }

  /** Reads back what `IntToString` writes; `None` for anything else. */
  function ParseInt(s: string): Option<int> {
    if |s| >= 2 && s[0] == '-' && AllDigits(s[1..]) then Some(0 - DigitsValue(s[1..]) as int)
    else if |s| >= 1 && AllDigits(s) then Some(DigitsValue(s))
    else None
  }

  lemma {:induction false} NatToStringValue(n: nat)
    ensures DigitsValue(NatToString(n)) == n
    decreases n
  {
    if n >= 10 {
      var s := NatToString(n);
      NatToStringValue(n / 10);
      assert s[..|s| - 1] == NatToString(n / 10);
    }
  }

  /** Rendering an integer in decimal and parsing it back is the identity. */
  lemma ParseIntRoundTrip(i: int)
    ensures ParseInt(IntToString(i)) == Some(i)
  {
    var s := IntToString(i);
    if i < 0 {
      assert s[1..] == NatToString(-i);
      NatToStringValue(-i);
    } else {
      NatToStringValue(i);
    }
  }

  /** Distinct integers have distinct decimal renderings. */
  lemma IntToStringInjective(i: int, j: int)
    requires IntToString(i) == IntToString(j)
    ensures i == j
  {
    ParseIntRoundTrip(i);
    ParseIntRoundTrip(j);
  }

  /** Number of occurrences of `c` in `s`. */
  function Occurrences(s: string, c: char): nat {
    if |s| == 0 then 0 else (if s[0] == c then 1 else 0) + Occurrences(s[1..], c)
  }

  lemma {:induction false} OccurrencesAppend(a: string, b: string, c: char)
    ensures Occurrences(a + b, c) == Occurrences(a, c) + Occurrences(b, c)
    decreases |a|
  {
    if |a| > 0 {
      assert (a + b)[1..] == a[1..] + b;
      OccurrencesAppend(a[1..], b, c);
    } else {
      assert a + b == b;
    }
  }

  lemma {:induction false} OccurrencesAbsent(s: string, c: char)
    requires c !in s
    ensures Occurrences(s, c) == 0
    decreases |s|
  {
    if |s| > 0 {
      OccurrencesAbsent(s[1..], c);
    }
  }

  /** Kotlin's `joinToString(sep)`: the items in order with `sep` between neighbours. */
  function Join(sep: string, items: seq<string>): (s: string)
    ensures |items| == 0 ==> s == ""
    ensures |items| >= 1 ==> |s| >= |items[0]| && s[..|items[0]|] == items[0]
    decreases |items|
  {
    if |items| == 0 then ""
    else if |items| == 1 then items[0]
    else
      var s := items[0] + sep + Join(sep, items[1..]);
      assert s[..|items[0]|] == items[0];
      s
  }

  /** Joining two non-empty lists puts one separator between their joins. */
  lemma {:induction false} JoinAppend(sep: string, a: seq<string>, b: seq<string>)
    requires |a| >= 1 && |b| >= 1
    ensures Join(sep, a + b) == Join(sep, a) + sep + Join(sep, b)
    decreases |a|
  {
    var ab := a + b;
    assert ab[0] == a[0];
    if |a| == 1 {
      assert ab[1..] == b;
    } else {
      assert ab[1..] == a[1..] + b;
      JoinAppend(sep, a[1..], b);
    }
  }

  /** Kotlin's `split(c)`: the maximal pieces of `s` between occurrences of `c`;
      an empty `s` yields one empty piece. */
  function Split(s: string, c: char): (pieces: seq<string>)
    ensures |pieces| >= 1
    ensures forall k :: 0 <= k < |pieces| ==> c !in pieces[k]
    decreases |s|
  {
    if |s| == 0 then [""]
    else
      var rest := Split(s[1..], c);
      if s[0] == c then [""] + rest
      else [[s[0]] + rest[0]] + rest[1..]
  }

  /** `split` yields one more piece than there are delimiters. */
  lemma {:induction false} SplitCount(s: string, c: char)
    ensures |Split(s, c)| == Occurrences(s, c) + 1
    decreases |s|
  {
    if |s| > 0 {
      SplitCount(s[1..], c);
    }
  }

  /** Joining the pieces of a split with the delimiter gives back the string. */
  lemma {:induction false} JoinSplit(s: string, c: char)
    ensures Join([c], Split(s, c)) == s
    decreases |s|
  {
    if |s| > 0 {
      var rest := Split(s[1..], c);
      JoinSplit(s[1..], c);
      if s[0] != c {
        if |rest| > 1 {
          assert ([[s[0]] + rest[0]] + rest[1..])[1..] == rest[1..];
        }
      }
    }
  }

  /** Splitting a join of delimiter-free items at the delimiter gives back the items. */
  lemma {:induction false} SplitJoin(items: seq<string>, c: char)
    requires |items| >= 1
    requires forall k :: 0 <= k < |items| ==> c !in items[k]
    ensures Split(Join([c], items), c) == items
    decreases |items|
  {
    if |items| == 1 {
      SplitNoDelimiter(items[0], c);
    } else {
      var tail := Join([c], items[1..]);
      SplitJoin(items[1..], c);
      assert ([c] + tail)[1..] == tail;
      assert Split([c] + tail, c) == [""] + items[1..];
      SplitPrefix(items[0], [c] + tail, c);
      assert Join([c], items) == items[0] + ([c] + tail);
      assert items[0] + "" == items[0];
      assert [items[0]] + items[1..] == items;
    }
  }

  lemma {:induction false} SplitNoDelimiter(s: string, c: char)
    requires c !in s
    ensures Split(s, c) == [s]
    decreases |s|
  {
    if |s| > 0 {
      SplitNoDelimiter(s[1..], c);
      assert [s[0]] + s[1..] == s;
    }
  }

  /** A delimiter-free prefix glues onto the first piece of what follows it. */
  lemma {:induction false} SplitPrefix(a: string, b: string, c: char)
    requires c !in a
    ensures Split(a + b, c) == [a + Split(b, c)[0]] + Split(b, c)[1..]
    decreases |a|
  {
    if |a| > 0 {
      assert (a + b)[1..] == a[1..] + b;
      SplitPrefix(a[1..], b, c);
      assert [a[0]] + (a[1..] + Split(b, c)[0]) == a + Split(b, c)[0];
    } else {
      var p := Split(b, c);
      assert a + b == b && a + p[0] == p[0];
      assert [p[0]] + p[1..] == p;
    }
  }

  /** Delimiters in a join: those inside the items plus those in each separator. */
  lemma {:induction false} JoinOccurrences(sep: string, items: seq<string>, c: char)
    requires forall k :: 0 <= k < |items| ==> c !in items[k]
    ensures |items| >= 1 ==> Occurrences(Join(sep, items), c) == (|items| - 1) * Occurrences(sep, c)
    ensures |items| == 0 ==> Occurrences(Join(sep, items), c) == 0
    decreases |items|
  {
    if |items| == 1 {
      OccurrencesAbsent(items[0], c);
    } else if |items| > 1 {
      var rest := Join(sep, items[1..]);
      assert Join(sep, items) == items[0] + sep + rest;
      JoinOccurrences(sep, items[1..], c);
      OccurrencesAppend(items[0] + sep, rest, c);
      OccurrencesAppend(items[0], sep, c);
      OccurrencesAbsent(items[0], c);
    }
  }
}

=== FILE: tickets.dfy ===
/** The "My Tickets" list: the Active/Past tab switch, the order tickets are
    listed in, and the ticket count each card shows. */
module Tickets {
  import Text
  import opened Catalog
  import opened SeatGrid
  import opened Bookings

  /** A confirmed booking paired with its movie. */
  datatype Ticket = Ticket(movie: Movie, booking: Booking)

  const ActiveTab: int := 0
  const PastTab: int := 1

  /** The tab state starts on Active. */
  const InitialTab: int := ActiveTab

  datatype TabClick = ClickActive | ClickPast

  function ClickTab(c: TabClick): (tab: int)
    ensures c.ClickActive? <==> tab == ActiveTab
    ensures c.ClickPast? <==> tab == PastTab
  {
    match c
    case ClickActive => ActiveTab
    case ClickPast => PastTab
  }

  /** `shown`: the Active tab lists tickets as given, any other tab lists them
      back to front. */
  function Shown(tickets: seq<Ticket>, tab: int): (r: seq<Ticket>)
    ensures |r| == |tickets|
    ensures tab == ActiveTab ==> r == tickets
    ensures tab != ActiveTab ==> forall k :: 0 <= k < |r| ==> r[k] == tickets[|tickets| - 1 - k]
  {
    if tab == ActiveTab then tickets else Reversed(tickets)
  }

  function Reversed(ts: seq<Ticket>): (r: seq<Ticket>)
    ensures |r| == |ts|
    ensures forall k :: 0 <= k < |r| ==> r[k] == ts[|ts| - 1 - k]
  {
    seq(|ts|, k requires 0 <= k < |ts| => ts[|ts| - 1 - k])
  }

  /** The Past tab drops no ticket and adds none: it lists the same tickets,
      each as often as the Active tab does, and reversing again restores the order. */
  lemma PastIsPermutation(tickets: seq<Ticket>)
    ensures multiset(Shown(tickets, PastTab)) == multiset(tickets)
    ensures Reversed(Shown(tickets, PastTab)) == tickets
  {
    ReversedMultiset(tickets);
  }

  lemma {:induction false} ReversedMultiset(ts: seq<Ticket>)
    ensures multiset(Reversed(ts)) == multiset(ts)
    decreases |ts|
  {
    if |ts| > 0 {
      var init := ts[..|ts| - 1];
      ReversedMultiset(init);
      assert Reversed(ts) == [ts[|ts| - 1]] + Reversed(init);
      assert ts == init + [ts[|ts| - 1]];
    }
  }

  /** The count a ticket card shows: `booking.seats.split(',').size`. */
  function TicketCount(t: Ticket): (n: nat)
    ensures n == Text.Occurrences(t.booking.seats, ',') + 1
  {
    Text.SplitCount(t.booking.seats, ',');
    |Text.Split(t.booking.seats, ',')|
  }

  /** For a booking built from the seat grid, the card counts the Selected
      seats, except that a booking with no seat shows 1. */
  lemma TicketCountOfBooking(movie: Movie, date: string, time: string, hall: string, g: seq<Seat>)
    requires Letterable(SelectedSeats(g))
    ensures var n := Count(g, Selected);
            var t := Ticket(movie, BuildBooking(movie.poster, date, time, hall, g));
            TicketCount(t) == if n == 0 then 1 else n
  {
    var sel := SelectedSeats(g);
    var seats := BuildBooking(movie.poster, date, time, hall, g).seats;
    assert seats == Text.Join(", ", Labels(sel));
    LabelsCommaFree(sel);
    assert Text.Occurrences(", ", ',') == 1 by {
      assert ", "[1..] == " " && " "[1..] == "";
    }
    Text.JoinOccurrences(", ", Labels(sel), ',');
  }
}
